=== FILE: README.md ===
# RepositoriesTabPanel tab bookkeeping, in Dafny

Gitnuro's `RepositoriesTabPanel` is a strip of closable repository tabs with
a "new tab" button. The host application owns the tab list and the selected
key. The widget keeps a single piece of state of its own: an identifier
counter, seeded with the number of tabs it was composed with. It reports
changes through three callbacks: `onTabSelected`, `onTabsUpdated` and
`onTabClosed`. A fourth callback, the factory `newTabContent(key)`, mints tabs.

This project models the two event handlers that do the bookkeeping:

- the "new tab" handler (`onNewTabClicked`);
- a tab's close handler (`onCloseTab`).

Both are modelled as pure transitions over a `State`: the list of tab keys,
the selected key and the counter. Each transition returns the new state
together with the ordered log of callbacks it fires (`TabSelected`,
`TabClosed`, `TabsUpdated`). A tab is represented by its key, and the
factory is taken to return a tab whose key is the key it was given.

Files:

- `kotlin_int.dfy` (module `KotlinInt`): Kotlin's 32-bit `Int`, and `++`
  with two's-complement wrap-around. Keys, the selected key and the counter
  all have this type.
- `lists.dfy` (module `Lists`): Kotlin's `indexOf` and `remove`. Both act on
  the first occurrence, `indexOf` returns -1 for a missing element, and
  `remove` of a missing element changes nothing. Also lemmas on deleting one
  position from a list.
- `tab_panel.dfy` (module `RepositoriesTabPanel`): the state, the event
  log, `Mount`, `Add`, `FallbackIndex`, `FallbackKey` and `Close`, plus
  `CloseAt`, the close handler on the clicked position rather than on a key.
- `tab_panel_properties.dfy` (module `TabPanelProperties`): the properties
  of `Add` and `Close`, key uniqueness over any sequence of clicks, and a
  host that replays the callbacks.

Points the model makes precise:

- **Fallback index.** The asymmetric rule ("0 if the first of several tabs
  is closed, otherwise index - 1, otherwise -1") equals `max(index - 1, 0)`
  whenever it is non-negative, and it is always in bounds of the list after
  removal. Resolved against that list, it names the second tab of the
  original list when the first is closed, and otherwise the tab just before
  the closed one.
- **The -1 sentinel.** The handler tests `nextKey >= 0`, so a real fallback
  tab whose key is negative is treated as "no fallback". Closing the
  selected tab then mints a replacement even though other tabs remain
  (`CloseSelectedNegativeNeighbourMints`). Keys minted by the counter are
  non-negative until the counter wraps, so this only happens with host keys
  that are negative or after 2^31 - 1 tabs.
- **Counter seed.** The counter starts at `tabs.count()`. Keys stay unique
  over every sequence of clicks that cannot wrap the counter if the initial
  keys are distinct and none is above the initial count (`MountKeysFresh`,
  `RunKeepsKeysFresh`). Conversely, a key above the count is minted again by
  enough "new tab" clicks (`SeedAboveCountCollides`). `SeedFromCountCollision`
  is one instance: composed on `[5]`, four adds mint 2, 3, 4 and then 5
  again.
- **First minted key.** The counter is seeded with `tabs.count()` and
  incremented before minting, so a freshly composed widget on `[0, 1]`
  mints 3, and one on `[5]` mints 2 when its sole tab is closed
  (`AddAfterMountExample`, `CloseSoleAfterMountExample`).

## Model

| member | source | states |
|---|---|---|
| KotlinInt.Inc | src/main/kotlin/app/ui/components/RepositoriesTabPanel.kt:40 | `tabsIdentifier++` on a 32-bit `Int`: one more below `Int.MAX_VALUE`, wrapping to `Int.MIN_VALUE` at it (the same increment is at line 77) |
| Lists.IndexOf | src/main/kotlin/app/ui/components/RepositoriesTabPanel.kt:57 | the result is -1 exactly when the key is absent; otherwise it is a position holding the key with no earlier occurrence |
| Lists.IndexOfDistinct | src/main/kotlin/app/ui/components/RepositoriesTabPanel.kt:57 | in a duplicate-free list, looking up the element at position i by value returns i, so value lookup agrees with identity lookup |
| Lists.RemoveFirst | src/main/kotlin/app/ui/components/RepositoriesTabPanel.kt:66 | removing an absent key leaves the list unchanged; removing a present key shortens the list by exactly one |
| Lists.RemoveFirstMultiset | src/main/kotlin/app/ui/components/RepositoriesTabPanel.kt:66 | removal takes exactly one copy of the key out of the list's multiset of elements and keeps all other elements |
| Lists.RemoveFirstAtIndexOf | src/main/kotlin/app/ui/components/RepositoriesTabPanel.kt:57-66 | `remove` deletes the element at the position `indexOf` reports; earlier tabs keep their places and later ones move up by one |
| Lists.RemoveFirstDistinct | src/main/kotlin/app/ui/components/RepositoriesTabPanel.kt:65-66 | in a duplicate-free list, removal keeps the list duplicate-free and removes exactly the closed key while keeping every other key |
| RepositoriesTabPanel.Mount | src/main/kotlin/app/ui/components/RepositoriesTabPanel.kt:31-33 | a freshly composed widget holds the host's list and selection unchanged and its counter equals the number of tabs |
| RepositoriesTabPanel.Add | src/main/kotlin/app/ui/components/RepositoriesTabPanel.kt:37-46 | appends exactly one tab at the end and keeps the old tabs unchanged and in order; the new tab's key is the new counter, the old one incremented as Kotlin's `++` does (plus one below `Int.MAX_VALUE`, wrapping at it), and is selected; the callbacks are `onTabSelected(new key)` and then `onTabsUpdated(new list)` |
| RepositoriesTabPanel.FallbackIndex | src/main/kotlin/app/ui/components/RepositoriesTabPanel.kt:58-63 | the index is non-negative exactly when the tab is present and there are at least two tabs; it is then below the post-removal length and equals max(index - 1, 0) |
| RepositoriesTabPanel.FallbackKey | src/main/kotlin/app/ui/components/RepositoriesTabPanel.kt:57-71 | with at least two tabs, the fallback key is the original second tab when the first tab is closed and otherwise the tab before the closed one; it is a member of the post-removal list; with fewer tabs it is -1 |
| RepositoriesTabPanel.Close | src/main/kotlin/app/ui/components/RepositoriesTabPanel.kt:55-89 | the result is the list with the key removed, plus a minted tab only when the closed tab was selected; a selected close fires select, close, update in that order and leaves a selection inside the list; an unselected close fires only close, update and changes neither the selection nor the counter |
| RepositoriesTabPanel.CloseAt | src/main/kotlin/app/ui/components/RepositoriesTabPanel.kt:55-89 | the close handler applied to the clicked tab object at position i: the list keeps every other tab in order, with a minted tab appended at most; a selected close with a non-negative neighbour selects the original second tab (first tab closed) or the original previous tab; an unselected close keeps the selection and counter and fires only close, update |
| TabPanelProperties.CloseSelectedAmongMany | src/main/kotlin/app/ui/components/RepositoriesTabPanel.kt:56-75 | closing the selected tab among at least two, with a non-negative fallback key, removes exactly that tab and selects the original second tab (first tab closed) or the original previous tab; the selection stays in the list, the counter is unchanged and no tab is minted |
| TabPanelProperties.CloseSelectedNonNegativeKeys | src/main/kotlin/app/ui/components/RepositoriesTabPanel.kt:68-75 | with all keys non-negative, closing the selected one of at least two tabs shortens the list by one, selects the neighbour and leaves the counter unchanged |
| TabPanelProperties.CloseSelectedNegativeNeighbourMints | src/main/kotlin/app/ui/components/RepositoriesTabPanel.kt:68-84 | when the fallback key is negative, the `nextKey >= 0` test fails, so a tab is minted and selected even though other tabs remain; the list keeps its length |
| TabPanelProperties.CloseSoleSelected | src/main/kotlin/app/ui/components/RepositoriesTabPanel.kt:73-84 | closing the sole selected tab yields exactly one tab, with the freshly minted key counter + 1 (below MAX); that tab is selected, and the closed key is still reported before the new list |
| TabPanelProperties.CloseUnselected | src/main/kotlin/app/ui/components/RepositoriesTabPanel.kt:73-88 | closing an unselected tab fires no selection event and keeps the selection and the counter; closing the sole unselected tab leaves the strip empty |
| TabPanelProperties.CloseRemovesOnlyClosedTab | src/main/kotlin/app/ui/components/RepositoriesTabPanel.kt:65-81 | the first n - 1 tabs after a close are the original list with the closed position deleted; otherwise exactly one tab is added, only when the closed tab was selected, and it carries the new counter |
| TabPanelProperties.CloseDistinctActsOnClickedTab | src/main/kotlin/app/ui/components/RepositoriesTabPanel.kt:55-75 | with distinct keys, closing by the key at position i deletes position i, the clicked tab, and falls back from that position as the identity-based lookup does |
| TabPanelProperties.CloseAtFirstOccurrence | src/main/kotlin/app/ui/components/RepositoriesTabPanel.kt:55-89 | when the clicked tab is the first one carrying its key, closing by key and closing the clicked object give the same list, selection, counter and callbacks |
| TabPanelProperties.CloseAtDistinct | src/main/kotlin/app/ui/components/RepositoriesTabPanel.kt:55-89 | with distinct keys, closing by key is exactly the identity-based close of the clicked tab |
| TabPanelProperties.CloseAtRepeatedKeyExample | src/main/kotlin/app/ui/components/RepositoriesTabPanel.kt:57-66 | on [5, 7, 5], closing the last tab leaves [5, 7], while removing by key leaves [7, 5]: with repeated keys the key model differs from the handler |
| TabPanelProperties.MountKeysFresh | src/main/kotlin/app/ui/components/RepositoriesTabPanel.kt:31-33 | with the counter seeded from the tab count, the uniqueness invariant holds at mount exactly when the keys are distinct and none exceeds the count |
| TabPanelProperties.AddKeepsKeysFresh | src/main/kotlin/app/ui/components/RepositoriesTabPanel.kt:38-42 | if keys are distinct and at most the counter, and the counter is below MAX, they stay so after an add |
| TabPanelProperties.CloseKeepsKeysFresh | src/main/kotlin/app/ui/components/RepositoriesTabPanel.kt:65-84 | if keys are distinct and at most the counter, and the counter is below MAX, they stay so after any close, including one that mints a replacement |
| TabPanelProperties.StepMintsOnlyNewKeys | src/main/kotlin/app/ui/components/RepositoriesTabPanel.kt:37-84 | a click raises the counter by zero or one, and any key it introduces is the new counter, which is above every earlier key |
| TabPanelProperties.RunKeepsKeysFresh | src/main/kotlin/app/ui/components/RepositoriesTabPanel.kt:31-89 | over any sequence of clicks that cannot wrap the counter, keys stay pairwise distinct and at most the counter, and the counter grows by at most one per click |
| TabPanelProperties.StepReplay | src/main/kotlin/app/ui/components/RepositoriesTabPanel.kt:37-89 | a host that applies the fired callbacks in order ends with the handler's resulting list and selection |
| TabPanelProperties.AddSelectsBeforePublishing | src/main/kotlin/app/ui/components/RepositoriesTabPanel.kt:44-45 | after `onTabSelected` and before `onTabsUpdated`, the host holds the old list and a selected key that is not yet in it |
| TabPanelProperties.AddAfterMountExample | src/main/kotlin/app/ui/components/RepositoriesTabPanel.kt:31-46 | a widget composed on [0, 1] mints key 3 on "new tab" and reports select(3) then update([0, 1, 3]) |
| TabPanelProperties.CloseSoleAfterMountExample | src/main/kotlin/app/ui/components/RepositoriesTabPanel.kt:31-88 | a widget composed on [5] with 5 selected mints key 2 when 5 is closed, selects it and still reports close(5) |
| TabPanelProperties.RunAdds | src/main/kotlin/app/ui/components/RepositoriesTabPanel.kt:37-46 | n adds that cannot wrap the counter keep the old tabs as a prefix, grow the list by n, raise the counter by n and end with the key counter + n |
| TabPanelProperties.SeedAboveCountCollides | src/main/kotlin/app/ui/components/RepositoriesTabPanel.kt:31-42 | if a key given at composition is above the tab count, then after (key - count) adds that key occurs twice |
| TabPanelProperties.SeedFromCountCollision | src/main/kotlin/app/ui/components/RepositoriesTabPanel.kt:31-42 | composed on [5], four "new tab" clicks produce [5, 2, 3, 4, 5], which has a duplicate key |

## Left out

- Rendering: `TabPanel` and `Tab` (lines 96-153) are layout, colours, icons and sizes, with no bookkeeping.
- The tab-click handler (lines 52-54) only forwards the tab's key to `onTabSelected`.
- `TabInformation`'s mutable `title` and its `content` closure (lines 155-159) are carried by the host and never read by the handlers. A tab is represented by its key alone.
- The factory `newTabContent` is a host closure. The model assumes it returns a tab with the key it was given. A factory that does not breaks uniqueness, and that case is not modelled.
- The callback implementations belong to the host. They appear only as the event log. `Replay` is one host that stores what it is told.
- The `remember` lifecycle is not modelled: the counter is reset when the widget is recomposed from scratch. The counter is explicit state threaded through the transitions, and `Mount` is the fresh start.
- Compose closures capture `tabs` and `selectedTabKey` at composition time. The model runs every handler against the state the previous one left, which assumes the host recomposes between clicks.
- `Close` on a key that is absent from the list cannot be triggered from the UI, because every close button belongs to a listed tab. The model still computes it the way the Kotlin code would: nothing is removed, and a tab is minted if the absent key was the selected one.
- TabPanelProperties.AddKeepsKeysFresh: uniqueness is proved only while the counter is below `Int.MAX_VALUE`. After the counter wraps, minted keys can repeat.
- TabPanelProperties.CloseKeepsKeysFresh: uniqueness after a close is proved only while the counter is below `Int.MAX_VALUE`, because a minted replacement could otherwise repeat a key.
- TabPanelProperties.StepMintsOnlyNewKeys: the "counter grows by zero or one" statement is proved only below `Int.MAX_VALUE`, because at it the counter wraps.
- TabPanelProperties.RunKeepsKeysFresh: for the same reason, it requires the counter plus the number of clicks to stay within `Int.MAX_VALUE`.
- RepositoriesTabPanel.Close: the Kotlin code finds the clicked tab by object identity (`indexOf` and `remove` on a `TabInformation`, which has no `equals`). The model finds it by key equality, taking the first tab with that key. `RepositoriesTabPanel.CloseAt` models the handler on the clicked position. The two agree whenever the clicked tab is the first one carrying its key (`CloseAtFirstOccurrence`), so in particular whenever keys are distinct (`CloseAtDistinct`). With a repeated key they can differ: on [5, 7, 5], closing the last tab removes that tab, while the key model removes the first (`CloseAtRepeatedKeyExample`).

=== FILE: kotlin_int.dfy ===
/** Kotlin's 32-bit `Int`: the type of tab keys, of the selected key and of
    the identifier counter. */
module KotlinInt {

  const MIN: int := -0x8000_0000
  const MAX: int := 0x7fff_ffff

  type Int = x: int | MIN <= x <= MAX

  /** `x++` on a Kotlin `Int`: two's-complement wrap-around past MAX. */
  function Inc(x: Int): (r: Int)
    ensures x < MAX ==> r == x + 1
    ensures x == MAX ==> r == MIN
    ensures (r - x - 1) % 0x1_0000_0000 == 0
  {
    if x == MAX then MIN else x + 1
  }
}

=== FILE: lists.dfy ===
/** The two list operations the close handler relies on, with the semantics of
    Kotlin's `List.indexOf` and `MutableList.remove`: both look for the FIRST
    occurrence of an element. */
module Lists {

  /** No element occurs twice. */
  predicate Distinct<T(==)>(xs: seq<T>)
  {
    forall i, j :: 0 <= i < j < |xs| ==> xs[i] != xs[j]
  }

  /** `xs.indexOf(x)`: the position of the first occurrence of `x`, or -1. */
  function IndexOf<T(==)>(xs: seq<T>, x: T): (i: int)
    ensures -1 <= i < |xs|
    ensures i == -1 <==> x !in xs
    ensures 0 <= i ==> xs[i] == x && x !in xs[..i]
  {
    if |xs| == 0 then -1
    else if xs[0] == x then 0
    else
      var j := IndexOf(xs[1..], x);
      // The prefix before position j + 1 of xs is xs[0] followed by the prefix
      // before position j of the tail, so x does not occur in it either.
      assert j >= 0 ==> xs[..j + 1] == [xs[0]] + xs[1..][..j];
      if j == -1 then -1 else j + 1
  }

  /** `xs.remove(x)` on a mutable copy: drops the first occurrence of `x`,
      leaves the list as it is when `x` does not occur. */
  function RemoveFirst<T(==)>(xs: seq<T>, x: T): (r: seq<T>)
    ensures x !in xs ==> r == xs
    ensures x in xs ==> |r| == |xs| - 1
  {
    if |xs| == 0 then []
    else
      assert xs == [xs[0]] + xs[1..];
      if xs[0] == x then xs[1..]
      else [xs[0]] + RemoveFirst(xs[1..], x)
  }

  /** Removing the first occurrence is deleting the element at the position
      `IndexOf` reports: everything before it keeps its place, everything after
      it moves up by one. */
  lemma {:induction false} RemoveFirstAtIndexOf<T>(xs: seq<T>, x: T)
    requires x in xs
    ensures var i := IndexOf(xs, x);
            RemoveFirst(xs, x) == xs[..i] + xs[i + 1..]
  {
    if xs[0] != x {
      var ys := xs[1..];
      RemoveFirstAtIndexOf(ys, x);
      var j := IndexOf(ys, x);
      assert IndexOf(xs, x) == j + 1;
      assert RemoveFirst(xs, x) == [xs[0]] + (ys[..j] + ys[j + 1..]);
      assert xs[..j + 1] == [xs[0]] + ys[..j];
      assert xs[j + 2..] == ys[j + 1..];
    }
  }

  /** Removing the first occurrence takes exactly one copy of `x` out of the
      list's multiset of elements and leaves every other element. */
  lemma {:induction false} RemoveFirstMultiset<T>(xs: seq<T>, x: T)
    ensures multiset(RemoveFirst(xs, x)) == multiset(xs) - multiset{x}
  {
    if |xs| > 0 {
      assert xs == [xs[0]] + xs[1..];
      if xs[0] != x {
        RemoveFirstMultiset(xs[1..], x);
      }
    }
  }

  /** Deleting the element at one position keeps a list duplicate-free. */
  lemma DeleteAtDistinct<T>(xs: seq<T>, i: nat)
    requires Distinct(xs) && i < |xs|
    ensures Distinct(xs[..i] + xs[i + 1..])
  {
    var r := xs[..i] + xs[i + 1..];
    forall a, b | 0 <= a < b < |r|
      ensures r[a] != r[b]
    {
      var a' := if a < i then a else a + 1;
      var b' := if b < i then b else b + 1;
      assert r[a] == xs[a'] && r[b] == xs[b'];
    }
  }

  /** In a duplicate-free list, deleting position `i` removes exactly the value
      stored there and keeps every other value. */
  lemma DeleteAtMembers<T>(xs: seq<T>, i: nat, y: T)
    requires Distinct(xs) && i < |xs|
    ensures y in xs[..i] + xs[i + 1..] <==> y in xs && y != xs[i]
  {
    var r := xs[..i] + xs[i + 1..];
    if y in xs && y != xs[i] {
      var k :| 0 <= k < |xs| && xs[k] == y;
      assert r[if k < i then k else k - 1] == y;
    }
    if y in r {
      var k :| 0 <= k < |r| && r[k] == y;
      var k' := if k < i then k else k + 1;
      assert xs[k'] == y && k' != i;
    }
  }

  /** Dropping one element keeps a list duplicate-free, and in a duplicate-free
      list the removed element is gone for good while every other one stays. */
  lemma RemoveFirstDistinct<T>(xs: seq<T>, x: T)
    requires Distinct(xs)
    ensures Distinct(RemoveFirst(xs, x))
    ensures forall y :: y in RemoveFirst(xs, x) <==> y in xs && y != x
  {
    if x in xs {
      RemoveFirstAtIndexOf(xs, x);
      var i := IndexOf(xs, x);
      DeleteAtDistinct(xs, i);
      forall y
        ensures y in RemoveFirst(xs, x) <==> y in xs && y != x
      {
        DeleteAtMembers(xs, i, y);
      }
    }
  }

  /** Appending a value the list does not hold keeps it duplicate-free. */
  lemma AppendDistinct<T>(xs: seq<T>, x: T)
    requires Distinct(xs) && x !in xs
    ensures Distinct(xs + [x])
  {
    var r := xs + [x];
    forall a, b | 0 <= a < b < |r|
      ensures r[a] != r[b]
    {
      if b == |xs| {
        assert r[a] == xs[a];
      }
    }
  }

  /** In a duplicate-free list the first occurrence of the element at position
      `i` is position `i` itself, so looking an element up by value finds the
      same place as pointing at it. */
  lemma IndexOfDistinct<T>(xs: seq<T>, i: nat)
    requires Distinct(xs) && i < |xs|
    ensures IndexOf(xs, xs[i]) == i
  {
  }
}

=== FILE: tab_panel.dfy ===
/** The tab bookkeeping of the `RepositoriesTabPanel` widget: the handler of the
    "new tab" button and the handler of a tab's close button, as pure
    transitions over the tab list, the selected key and the widget's
    identifier counter. A tab is represented by its key; the factory
    `newTabContent(k)` is taken to mint a tab whose key is `k`. Each
    transition also returns the callbacks it fires, in order. */
module RepositoriesTabPanel {
  import opened KotlinInt
  import opened Lists

  /** What the handlers see: the host's tab list and selected key, and the
      widget's own identifier counter. */
  datatype State = State(tabs: seq<Int>, selected: Int, counter: Int)

  /** One callback fired towards the host. */
  datatype Event =
    | TabSelected(key: Int)          // onTabSelected
    | TabClosed(key: Int)            // onTabClosed
    | TabsUpdated(tabs: seq<Int>)    // onTabsUpdated

  /** The state after a handler, as a host that honours every callback holds
      it, together with the callbacks fired to get there. */
  datatype Outcome = Outcome(state: State, events: seq<Event>)

  /** The state a freshly composed widget starts from: the counter is seeded
      with the number of tabs it was given. */
  function Mount(tabs: seq<Int>, selected: Int): (s: State)
    requires |tabs| <= MAX
    ensures s.tabs == tabs && s.selected == selected
    ensures s.counter == |tabs|
  {
    State(tabs, selected, |tabs|)
  }

  /** The "new tab" button: mint a tab with the next identifier, append it to
      a copy of the list, select it, then publish the list. */
  function Add(s: State): (o: Outcome)
    ensures |o.state.tabs| == |s.tabs| + 1
    ensures o.state.tabs[..|s.tabs|] == s.tabs
    ensures o.state.tabs[|s.tabs|] == o.state.counter == o.state.selected
    ensures o.state.counter == Inc(s.counter)
    ensures o.events == [TabSelected(o.state.selected), TabsUpdated(o.state.tabs)]
  {
    var id := Inc(s.counter);
    var copy := s.tabs + [id];
    Outcome(State(copy, id, id), [TabSelected(id), TabsUpdated(copy)])
  }

  /** The larger of two integers. */
  function Max(a: int, b: int): (m: int)
    ensures m >= a && m >= b && (m == a || m == b)
  {
    if a < b then b else a
  }

  /** The position of the tab to select instead of the closed one: the new
      first tab when the first of several tabs is closed, the previous tab
      otherwise, -1 when there is no other tab, and -2 when the closed tab is
      absent from a list of two or more. */
  function FallbackIndex(index: int, count: int): (r: int)
    requires -1 <= index < count
    ensures r >= 0 <==> index >= 0 && count >= 2
    ensures r >= 0 ==> r < count - 1
    ensures r >= 0 ==> r == Max(index - 1, 0)
  {
    if index == 0 && count >= 2 then 0
    else if count >= 2 then index - 1
    else -1
  }

  /** The key the close handler falls back to (`nextKey`): the fallback
      position resolved against the list without the closed tab, or -1 when
      there is none. Read off the list before the removal, it is the second
      tab when the first one is closed and otherwise the tab just before the
      closed one. */
  function FallbackKey(tabs: seq<Int>, key: Int): (r: Int)
    ensures key in tabs && |tabs| >= 2 ==>
              var i := IndexOf(tabs, key);
              && r == (if i == 0 then tabs[1] else tabs[i - 1])
              && r in RemoveFirst(tabs, key)
    ensures !(key in tabs && |tabs| >= 2) ==> r == -1
  {
    var index := IndexOf(tabs, key);
    var nextIndex := FallbackIndex(index, |tabs|);
    var copy := RemoveFirst(tabs, key);
    if nextIndex >= 0 then
      RemoveFirstAtIndexOf(tabs, key);
      copy[nextIndex]
    else -1
  }

  /** The close button of the tab with key `key`. */
  function Close(s: State, key: Int): (o: Outcome)
    ensures o.state.tabs == RemoveFirst(s.tabs, key)
            || (s.selected == key
                && o.state.tabs == RemoveFirst(s.tabs, key) + [o.state.counter]
                && o.state.counter == Inc(s.counter))
    ensures s.selected == key ==>
              && o.state.selected in o.state.tabs
              && o.events == [TabSelected(o.state.selected), TabClosed(key), TabsUpdated(o.state.tabs)]
    ensures s.selected != key ==>
              && o.state.tabs == RemoveFirst(s.tabs, key)
              && o.state.selected == s.selected
              && o.state.counter == s.counter
              && o.events == [TabClosed(key), TabsUpdated(o.state.tabs)]
  {
    var isTabSelected := s.selected == key;
    var copy := RemoveFirst(s.tabs, key);
    var nextKey := FallbackKey(s.tabs, key);
    if isTabSelected && nextKey >= 0 then
      Outcome(State(copy, nextKey, s.counter),
              [TabSelected(nextKey), TabClosed(key), TabsUpdated(copy)])
    else if isTabSelected then
      var id := Inc(s.counter);
      var minted := copy + [id];
      Outcome(State(minted, id, id),
              [TabSelected(id), TabClosed(key), TabsUpdated(minted)])
    else
      Outcome(State(copy, s.selected, s.counter), [TabClosed(key), TabsUpdated(copy)])
  }

  /** The close button as the Kotlin code runs it: the clicked tab is the
      object at position `i`, so `indexOf` and `remove` find that very tab even
      when another tab carries the same key. */
  function CloseAt(s: State, i: nat): (o: Outcome)
    requires i < |s.tabs|
    ensures |o.state.tabs| == |s.tabs| - 1 || |o.state.tabs| == |s.tabs|
    ensures o.state.tabs[..|s.tabs| - 1] == s.tabs[..i] + s.tabs[i + 1..]
    ensures s.selected == s.tabs[i] && |s.tabs| >= 2 && (if i == 0 then s.tabs[1] else s.tabs[i - 1]) >= 0 ==>
              && o.state.tabs == s.tabs[..i] + s.tabs[i + 1..]
              && o.state.selected == (if i == 0 then s.tabs[1] else s.tabs[i - 1])
    ensures s.selected != s.tabs[i] ==>
              && o.state.tabs == s.tabs[..i] + s.tabs[i + 1..]
              && o.state.selected == s.selected
              && o.state.counter == s.counter
              && o.events == [TabClosed(s.tabs[i]), TabsUpdated(o.state.tabs)]
  {
    var key := s.tabs[i];
    var isTabSelected := s.selected == key;
    var nextIndex := FallbackIndex(i, |s.tabs|);
    var copy := s.tabs[..i] + s.tabs[i + 1..];
    var nextKey := if nextIndex >= 0 then copy[nextIndex] else -1;
    if isTabSelected && nextKey >= 0 then
      Outcome(State(copy, nextKey, s.counter),
              [TabSelected(nextKey), TabClosed(key), TabsUpdated(copy)])
    else if isTabSelected then
      var id := Inc(s.counter);
      var minted := copy + [id];
      Outcome(State(minted, id, id),
              [TabSelected(id), TabClosed(key), TabsUpdated(minted)])
    else
      Outcome(State(copy, s.selected, s.counter), [TabClosed(key), TabsUpdated(copy)])
  }
}

=== FILE: tab_panel_properties.dfy ===
/** What the two handlers of `RepositoriesTabPanel` guarantee: which tab a
    close selects, when a replacement tab is minted, the order of the
    callbacks, and that keys stay unique over any sequence of clicks. */
module TabPanelProperties {
  import opened KotlinInt
  import opened Lists
  import opened RepositoriesTabPanel

  /** Closing the selected tab while other tabs remain selects the neighbour,
      as long as its key is not negative: the list loses exactly the closed
      tab, nothing is minted, and the selection changes before the close and
      the new list are reported. */
  lemma CloseSelectedAmongMany(s: State, key: Int)
    requires key in s.tabs && s.selected == key && |s.tabs| >= 2
    requires FallbackKey(s.tabs, key) >= 0
    ensures var i := IndexOf(s.tabs, key);
            var o := Close(s, key);
            && o.state.tabs == s.tabs[..i] + s.tabs[i + 1..]
            && o.state.selected == (if i == 0 then s.tabs[1] else s.tabs[i - 1])
            && o.state.selected in o.state.tabs
            && o.state.counter == s.counter
            && o.events == [TabSelected(o.state.selected), TabClosed(key), TabsUpdated(o.state.tabs)]
  {
    RemoveFirstAtIndexOf(s.tabs, key);
  }

  /** With non-negative keys, closing the selected one of several tabs never
      mints a tab. */
  lemma CloseSelectedNonNegativeKeys(s: State, key: Int)
    requires key in s.tabs && s.selected == key && |s.tabs| >= 2
    requires forall k :: k in s.tabs ==> k >= 0
    ensures var i := IndexOf(s.tabs, key);
            var o := Close(s, key);
            && |o.state.tabs| == |s.tabs| - 1
            && o.state.selected == (if i == 0 then s.tabs[1] else s.tabs[i - 1])
            && o.state.counter == s.counter
  {
    assert FallbackKey(s.tabs, key) in s.tabs;
    CloseSelectedAmongMany(s, key);
  }

  /** The `-1` sentinel for "no fallback" shares its range with real keys: when
      the neighbour's key is negative, closing the selected tab mints a new tab
      even though other tabs remain, so the list keeps its length. */
  lemma CloseSelectedNegativeNeighbourMints(s: State, key: Int)
    requires key in s.tabs && s.selected == key && |s.tabs| >= 2
    requires FallbackKey(s.tabs, key) < 0
    ensures var o := Close(s, key);
            && |o.state.tabs| == |s.tabs|
            && o.state.counter == Inc(s.counter)
            && o.state.tabs == RemoveFirst(s.tabs, key) + [o.state.counter]
            && o.state.selected == o.state.counter
  {
    RemoveFirstAtIndexOf(s.tabs, key);
  }

  /** Closing the only tab while it is selected never leaves the strip empty:
      the list becomes exactly one freshly minted tab, which is selected. */
  lemma CloseSoleSelected(s: State, key: Int)
    requires s.tabs == [key] && s.selected == key
    ensures var o := Close(s, key);
            && o.state.tabs == [Inc(s.counter)]
            && o.state.selected == Inc(s.counter)
            && o.state.counter == Inc(s.counter)
            && (s.counter < MAX ==> o.state.counter == s.counter + 1)
            && o.events == [TabSelected(Inc(s.counter)), TabClosed(key), TabsUpdated([Inc(s.counter)])]
  {
    assert RemoveFirst(s.tabs, key) == [];
  }

  /** Closing a tab that is not selected reports no selection and leaves the
      selection and the counter alone; closing the only tab that way empties
      the strip. */
  lemma CloseUnselected(s: State, key: Int)
    requires s.selected != key
    ensures var o := Close(s, key);
            && (forall e :: e in o.events ==> !e.TabSelected?)
            && o.state.selected == s.selected
            && o.state.counter == s.counter
            && (s.tabs == [key] ==> o.state.tabs == [])
  {
    if s.tabs == [key] {
      assert RemoveFirst(s.tabs, key) == [];
    }
  }

  /** Closing removes exactly the closed tab, keeps the others in their order,
      and adds a tab only when it mints the replacement. */
  lemma CloseRemovesOnlyClosedTab(s: State, key: Int)
    requires key in s.tabs
    ensures var i := IndexOf(s.tabs, key);
            var o := Close(s, key);
            && o.state.tabs[..|s.tabs| - 1] == s.tabs[..i] + s.tabs[i + 1..]
            && (|o.state.tabs| == |s.tabs| - 1
                || (s.selected == key && |o.state.tabs| == |s.tabs|
                    && o.state.tabs[|s.tabs| - 1] == o.state.counter))
  {
    RemoveFirstAtIndexOf(s.tabs, key);
  }

  /** The Kotlin handler acts on the clicked tab object, found by
      identity. When keys are distinct, the tab at position `i` is also the
      first tab with its key, so closing by key removes and falls back from
      exactly the clicked position. */
  lemma CloseDistinctActsOnClickedTab(s: State, i: nat)
    requires Distinct(s.tabs) && i < |s.tabs|
    ensures var o := Close(s, s.tabs[i]);
            && o.state.tabs[..|s.tabs| - 1] == s.tabs[..i] + s.tabs[i + 1..]
            && (s.selected == s.tabs[i] && |s.tabs| >= 2 && FallbackKey(s.tabs, s.tabs[i]) >= 0 ==>
                  o.state.selected == (if i == 0 then s.tabs[1] else s.tabs[i - 1]))
  {
    IndexOfDistinct(s.tabs, i);
    CloseRemovesOnlyClosedTab(s, s.tabs[i]);
    if s.selected == s.tabs[i] && |s.tabs| >= 2 && FallbackKey(s.tabs, s.tabs[i]) >= 0 {
      CloseSelectedAmongMany(s, s.tabs[i]);
    }
  }

  /** Looking the clicked tab up by key finds the clicked tab itself whenever
      it is the first tab carrying its key; then closing by key and closing
      the clicked object coincide, callbacks included. */
  lemma CloseAtFirstOccurrence(s: State, i: nat)
    requires i < |s.tabs| && IndexOf(s.tabs, s.tabs[i]) == i
    ensures CloseAt(s, i) == Close(s, s.tabs[i])
  {
    RemoveFirstAtIndexOf(s.tabs, s.tabs[i]);
  }

  /** With distinct keys every tab is the first carrying its key, so the key
      model of the close button is exact. */
  lemma CloseAtDistinct(s: State, i: nat)
    requires Distinct(s.tabs) && i < |s.tabs|
    ensures CloseAt(s, i) == Close(s, s.tabs[i])
  {
    IndexOfDistinct(s.tabs, i);
    CloseAtFirstOccurrence(s, i);
  }

  /** With a repeated key the two part ways: closing the second tab keyed 5
      of [5, 7, 5] removes that tab, while closing by key removes the first. */
  lemma CloseAtRepeatedKeyExample()
    ensures CloseAt(State([5, 7, 5], 5, 3), 2).state.tabs == [5, 7]
    ensures Close(State([5, 7, 5], 5, 3), 5).state.tabs == [7, 5]
  {
  }

  /** The key-uniqueness invariant: no key occurs twice and the counter is at
      least every key, so the next minted key is new. */
  predicate KeysFresh(s: State)
  {
    && Distinct(s.tabs)
    && forall k :: k in s.tabs ==> k <= s.counter
  }

  /** A freshly composed widget satisfies the invariant exactly when the tabs
      it is given are distinct and none has a key above their count. */
  lemma MountKeysFresh(tabs: seq<Int>, selected: Int)
    requires |tabs| <= MAX
    ensures KeysFresh(Mount(tabs, selected)) <==>
              Distinct(tabs) && forall k :: k in tabs ==> k <= |tabs|
  {
  }

  /** The "new tab" button keeps the invariant while the counter has room. */
  lemma AddKeepsKeysFresh(s: State)
    requires KeysFresh(s) && s.counter < MAX
    ensures KeysFresh(Add(s).state)
  {
    AppendDistinct(s.tabs, s.counter + 1);
  }

  /** A close button keeps the invariant while the counter has room. */
  lemma CloseKeepsKeysFresh(s: State, key: Int)
    requires KeysFresh(s) && s.counter < MAX
    ensures KeysFresh(Close(s, key).state)
  {
    RemoveFirstDistinct(s.tabs, key);
    var copy := RemoveFirst(s.tabs, key);
    var o := Close(s, key);
    if o.state.tabs != copy {
      assert s.counter + 1 !in copy;
      AppendDistinct(copy, s.counter + 1);
    }
  }

  /** A click of the strip: the "new tab" button or a tab's close button. */
  datatype Click = NewTabClicked | CloseClicked(key: Int)

  /** The handler a click runs. */
  function Step(s: State, c: Click): (o: Outcome)
  {
    match c
    case NewTabClicked => Add(s)
    case CloseClicked(key) => Close(s, key)
  }

  /** Any key a click introduces is the freshly minted one: it equals the new
      counter, which is one above the old one and so above every earlier key. */
  lemma StepMintsOnlyNewKeys(s: State, c: Click)
    requires KeysFresh(s) && s.counter < MAX
    ensures var o := Step(s, c);
            && (o.state.counter == s.counter || o.state.counter == s.counter + 1)
            && forall k :: k in o.state.tabs && k !in s.tabs ==>
                             k == o.state.counter == s.counter + 1
  {
    var o := Step(s, c);
    match c
    case NewTabClicked =>
      assert o.state.tabs == s.tabs + [s.counter + 1];
    case CloseClicked(key) =>
      RemoveFirstDistinct(s.tabs, key);
  }

  /** The state after a sequence of clicks, each handled against the state the
      previous one left. */
  function Run(s: State, clicks: seq<Click>): (t: State)
    decreases |clicks|
  {
    if |clicks| == 0 then s else Run(Step(s, clicks[0]).state, clicks[1..])
  }

  /** Keys stay unique over any sequence of clicks, as long as the counter
      cannot wrap around; the counter grows by at most one per click. */
  lemma {:induction false} RunKeepsKeysFresh(s: State, clicks: seq<Click>)
    requires KeysFresh(s) && s.counter + |clicks| <= MAX
    ensures KeysFresh(Run(s, clicks))
    ensures s.counter <= Run(s, clicks).counter <= s.counter + |clicks|
    decreases |clicks|
  {
    if |clicks| > 0 {
      var t := Step(s, clicks[0]).state;
      StepMintsOnlyNewKeys(s, clicks[0]);
      match clicks[0] {
        case NewTabClicked => AddKeepsKeysFresh(s);
        case CloseClicked(key) => CloseKeepsKeysFresh(s, key);
      }
      RunKeepsKeysFresh(t, clicks[1..]);
    }
  }

  /** What a host that stores every reported key and list holds. */
  datatype Host = Host(tabs: seq<Int>, selected: Int)

  /** One callback as the host applies it: `onTabSelected` stores the key,
      `onTabsUpdated` stores the list, `onTabClosed` changes neither. */
  function Apply(h: Host, e: Event): (h': Host)
  {
    match e
    case TabSelected(k) => h.(selected := k)
    case TabsUpdated(ts) => h.(tabs := ts)
    case TabClosed(_) => h
  }

  /** Applies the callbacks in the order they are fired. */
  function Replay(h: Host, events: seq<Event>): (h': Host)
    decreases |events|
  {
    if |events| == 0 then h else Replay(Apply(h, events[0]), events[1..])
  }

  /** Replaying two callbacks applies the first, then the second. */
  lemma ReplayPair(h: Host, a: Event, b: Event)
    ensures Replay(h, [a, b]) == Apply(Apply(h, a), b)
  {
    assert [a, b][1..] == [b];
    assert [b][1..] == [];
    assert Replay(h, [a, b]) == Replay(Apply(h, a), [b]);
    assert Replay(Apply(h, a), [b]) == Replay(Apply(Apply(h, a), b), []);
  }

  /** Replaying three callbacks applies them one after the other. */
  lemma ReplayTriple(h: Host, a: Event, b: Event, c: Event)
    ensures Replay(h, [a, b, c]) == Apply(Apply(Apply(h, a), b), c)
  {
    assert [a, b, c][1..] == [b, c];
    assert Replay(h, [a, b, c]) == Replay(Apply(h, a), [b, c]);
    ReplayPair(Apply(h, a), b, c);
  }

  /** Replaying a click's callbacks brings the host to the list and selection
      of the handler's resulting state. */
  lemma StepReplay(s: State, c: Click)
    ensures var o := Step(s, c);
            Replay(Host(s.tabs, s.selected), o.events) == Host(o.state.tabs, o.state.selected)
  {
    var o := Step(s, c);
    var h := Host(s.tabs, s.selected);
    match c {
      case NewTabClicked =>
        ReplayPair(h, TabSelected(o.state.selected), TabsUpdated(o.state.tabs));
      case CloseClicked(key) =>
        if s.selected == key {
          ReplayTriple(h, TabSelected(o.state.selected), TabClosed(key), TabsUpdated(o.state.tabs));
        } else {
          ReplayPair(h, TabClosed(key), TabsUpdated(o.state.tabs));
        }
    }
  }

  /** The new key is reported before the new list: between the two callbacks
      a host holds a selected key that its list does not contain yet. */
  lemma AddSelectsBeforePublishing(s: State)
    requires KeysFresh(s) && s.counter < MAX
    ensures var o := Add(s);
            var h := Replay(Host(s.tabs, s.selected), o.events[..1]);
            h.tabs == s.tabs && h.selected !in h.tabs && h.selected in o.state.tabs
  {
    var o := Add(s);
    assert o.events[..1] == [TabSelected(o.state.selected)];
    assert o.events[..1][1..] == [];
  }

  /** Composed on tabs [0, 1], the counter starts at 2, so "new tab" mints key 3. */
  lemma AddAfterMountExample()
    ensures var o := Add(Mount([0, 1], 0));
            o.state.tabs == [0, 1, 3]
            && o.events == [TabSelected(3), TabsUpdated([0, 1, 3])]
  {
  }

  /** Composed on the single tab [5], closing it mints key 2 (the count plus
      one) and still reports the closed key 5. */
  lemma CloseSoleAfterMountExample()
    ensures var o := Close(Mount([5], 5), 5);
            o.state.tabs == [2] && o.state.selected == 2
            && o.events == [TabSelected(2), TabClosed(5), TabsUpdated([2])]
  {
    CloseSoleSelected(Mount([5], 5), 5);
  }

  /** Seeding the counter with the tab count does not by itself keep keys
      unique: composed on [5], four "new tab" clicks mint 2, 3, 4 and then 5
      again. */
  lemma SeedFromCountCollision()
    ensures Run(Mount([5], 5), [NewTabClicked, NewTabClicked, NewTabClicked, NewTabClicked]).tabs
            == [5, 2, 3, 4, 5]
    ensures !Distinct(Run(Mount([5], 5), [NewTabClicked, NewTabClicked, NewTabClicked, NewTabClicked]).tabs)
  {
    var s0 := Mount([5], 5);
    var s1 := Add(s0).state;
    var s2 := Add(s1).state;
    var s3 := Add(s2).state;
    var s4 := Add(s3).state;
    var cs := [NewTabClicked, NewTabClicked, NewTabClicked, NewTabClicked];
    assert Run(s0, cs) == Run(s1, cs[1..]);
    assert Run(s1, cs[1..]) == Run(s2, cs[2..]);
    assert Run(s2, cs[2..]) == Run(s3, cs[3..]);
    assert Run(s3, cs[3..]) == Run(s4, cs[4..]);
    assert s4.tabs[0] == s4.tabs[4];
  }

  /** `n` clicks of the "new tab" button. */
  function Adds(n: nat): (cs: seq<Click>)
    ensures |cs| == n && forall i :: 0 <= i < n ==> cs[i] == NewTabClicked
  {
    if n == 0 then [] else [NewTabClicked] + Adds(n - 1)
  }

  /** `n` adds that cannot wrap the counter keep the old tabs as a prefix and
      end with the key `counter + n`. */
  lemma {:induction false} RunAdds(s: State, n: nat)
    requires s.counter + n <= MAX
    ensures var t := Run(s, Adds(n));
            && |t.tabs| == |s.tabs| + n
            && t.tabs[..|s.tabs|] == s.tabs
            && t.counter == s.counter + n
            && (n > 0 ==> t.tabs[|t.tabs| - 1] == s.counter + n)
    decreases n
  {
    if n > 0 {
      var s' := Add(s).state;
      assert Adds(n)[1..] == Adds(n - 1);
      assert Run(s, Adds(n)) == Run(s', Adds(n - 1));
      RunAdds(s', n - 1);
      var t := Run(s', Adds(n - 1));
      assert t.tabs[..|s.tabs|] == t.tabs[..|s'.tabs|][..|s.tabs|];
    }
  }

  /** The converse of `MountKeysFresh` with `RunKeepsKeysFresh`: when a key
      given at composition is above the tab count, enough "new tab" clicks
      mint that key again, with no wrap-around of the counter involved. */
  lemma SeedAboveCountCollides(tabs: seq<Int>, selected: Int, k: Int)
    requires |tabs| < k && k in tabs
    ensures var t := Run(Mount(tabs, selected), Adds(k - |tabs|));
            exists a, b :: 0 <= a < b < |t.tabs| && t.tabs[a] == t.tabs[b] == k
  {
    var s := Mount(tabs, selected);
    RunAdds(s, k - |tabs|);
    var t := Run(s, Adds(k - |tabs|));
    var j :| 0 <= j < |tabs| && tabs[j] == k;
    assert t.tabs[j] == t.tabs[..|tabs|][j] == k;
    assert t.tabs[|t.tabs| - 1] == k;
  }
}
